=== FILE: README.md ===
# Rate-limited handshake uploader — a Dafny model

This project models the core of the `BetterOnlineHashCrack` Pwnagotchi plugin
(`reborn_onlinehashcracking/reborn_onlinehashcrack.py`). The plugin uploads
captured WPA handshakes, stored as hashcat mode-22000 `.22000` files, to the
onlinehashcrack.com API. The plugin's upload logic, beneath its display,
logging, HTTP and filesystem calls, is what is modelled:

- the quota state (`uploads_this_hour`, `last_hour_reset`, `last_upload`,
  `rate_limit_hit`). It has a fixed one-hour window reset lazily, a cap of 30
  accepted uploads per window, a 300-second cooldown after an HTTP 429, and at
  least 12 seconds between the last accepted upload and the next request
  (module `RateControl`);
- the hash-file check. The first line, stripped, must be non-empty and start
  with `WPA*` (module `HashFile`, using `Text`);
- candidate selection. A candidate is a `.22000` file without a `<name>.uploaded`
  marker whose `.pcap` name survives the whitelist (module `Selection`, using
  `Seqs.Filter`);
- the upload loop. Invalid files are skipped, each accepted upload gets a
  marker, and the first failed submission ends the batch (module `Batch`);
- the `on_loaded` configuration gate, the not-ready/busy guard of
  `on_internet_available`, and a session of successive handler calls (module
  `Plugin`).

Time is an integer number of seconds passed in as a parameter. Every
`time.sleep(d)` advances the clock by exactly `d`, including the display pauses
of 1, 2 and 3 seconds. A request advances it by the reply's latency. Everything
else takes no time. The network is a total function from (attempt number, hash
line) to a `Reply`, which holds an abstract response (`Status(code)` or
`ConnectionFailed`) and a latency. File contents are a function from name to
`Option<string>`; `None` is a file that could not be opened or decoded. The
whitelist is an uninterpreted predicate on capture-file names.

Behaviour of the code worth noting:
- `last_upload` is set only on HTTP 200. Spacing is therefore counted from the
  response of the last accepted upload.
- A 429 sets `rate_limit_hit`, sleeps 300 s and returns false. The flag stays set,
  so the next submission sleeps another 300 s before clearing it
  (`RateControl.ThrottleDelaysNextRequest`).
- Reaching the cap sleeps until the window ends and then returns false. That
  ends the batch; the submission is not retried (`RateControl.RefusalOpensFreshWindow`,
  `Batch.FirstFailureStops`).
- `name.replace('.22000', '.pcap')` replaces every occurrence of `.22000`, including
  one inside the stem (`Selection.CaptureNameReplacesEveryOccurrence`).
- A directory that cannot be listed raises out of the handler. The model takes
  the listing as given.

## Model

| member | source | states |
|---|---|---|
| RateControl.InitialQuota | reborn_onlinehashcracking/reborn_onlinehashcrack.py:18-21 | a new plugin has no uploads, no cooldown, the window opened at construction and `last_upload` at 0 |
| RateControl.ResetWindow | reborn_onlinehashcracking/reborn_onlinehashcrack.py:44-48 | afterwards the window is current (less than 3600 s old); the state changes only if the window had expired, and then the counter is 0 and the window starts now; pacing and cooldown are untouched |
| RateControl.ResetWindowIdempotent | reborn_onlinehashcracking/reborn_onlinehashcrack.py:44-48 | resetting twice at the same time is resetting once; a current window is left alone |
| RateControl.SpacingDelay | reborn_onlinehashcracking/reborn_onlinehashcrack.py:97-101 | the delay is the least non-negative wait that puts the request at least 12 s after `last_upload` |
| RateControl.Decide | reborn_onlinehashcracking/reborn_onlinehashcrack.py:81-101 | refuses exactly when the reset window holds 30 uploads, and then sleeps to the window's end changing nothing; otherwise sends under the cap, with the cooldown cleared, at the earliest time allowed by both the 300 s cooldown and the 12 s spacing |
| RateControl.Classify | reborn_onlinehashcracking/reborn_onlinehashcrack.py:117-141 | true exactly on 200; only 200 counts an upload and restarts spacing from the response time; only 429 raises the cooldown flag; no outcome moves the window |
| RateControl.Submit | reborn_onlinehashcracking/reborn_onlinehashcrack.py:79-141 | time moves forward; a request is sent iff the cap is not reached; a sent request is accepted exactly on 200; the cap of 30 is preserved; every request is at least 12 s after `last_upload` and after any pending cooldown; the window never moves back, and while it stays put the counter grows by exactly the accepted upload; `last_upload` never moves back; a sent request answered 429 leaves `rate_limit_hit` set and returns at least 300 s after the answer |
| RateControl.OutcomeEffects | reborn_onlinehashcracking/reborn_onlinehashcrack.py:117-141 | from the state the request was sent in: 200 adds one upload and sets `last_upload`; 429 only sets the flag; any other status or a connection failure changes nothing; only 200 returns true |
| RateControl.CooldownServedThenCleared | reborn_onlinehashcracking/reborn_onlinehashcrack.py:91-95 | with the flag set and the cap not reached, the request waits at least 300 s and the flag ends cleared unless the reply is another 429 |
| RateControl.RefusalOpensFreshWindow | reborn_onlinehashcracking/reborn_onlinehashcrack.py:84-89 | a cap refusal returns false and sleeps to the window's end, so the next submission starts with an empty window |
| RateControl.ThrottleDelaysNextRequest | reborn_onlinehashcracking/reborn_onlinehashcrack.py:91-130 | after a 429, the next request goes out at least 600 s after the throttled one's response |
| RateControl.AcceptedThenSpaced | reborn_onlinehashcracking/reborn_onlinehashcrack.py:97-119 | after an accepted upload, the next request is at least 12 s after its response |
| Text.Strip | reborn_onlinehashcracking/reborn_onlinehashcrack.py:64 | the result is empty iff the text is all whitespace; otherwise it neither starts nor ends with whitespace |
| Text.StripRemovesOnlyPadding | reborn_onlinehashcracking/reborn_onlinehashcrack.py:64 | the input is the stripped result with a run of whitespace on each side, so nothing else was removed |
| Text.StripPadded | reborn_onlinehashcracking/reborn_onlinehashcrack.py:64 | stripping whitespace-padded text gives back exactly that text |
| Text.FirstLine | reborn_onlinehashcracking/reborn_onlinehashcrack.py:64 | the result is a prefix with no line break, ended by a line break or by the end of the file |
| Text.ReplaceAll | reborn_onlinehashcracking/reborn_onlinehashcrack.py:164 | `str.replace` with a non-empty pattern: a replacement no longer than the pattern never lengthens the text, and one of equal length keeps its length; `ReplaceAbsent` and `ReplaceOnlySuffix` fix its result on texts without the pattern and on a single trailing occurrence, and `ReplaceFirstOccurrence` on the first occurrence of any other text, so together they determine it on every input |
| Text.ReplaceAbsent | reborn_onlinehashcracking/reborn_onlinehashcrack.py:164 | `replace` leaves a string without the pattern unchanged |
| Text.ReplaceFirstOccurrence | reborn_onlinehashcracking/reborn_onlinehashcrack.py:164 | `replace` rewrites the first occurrence of the pattern and goes on with the rest: `x + pat + y` becomes `x + rep + replace(y)` when `pat` does not start inside `x` |
| Text.ReplaceOnlySuffix | reborn_onlinehashcracking/reborn_onlinehashcrack.py:164 | `replace` turns `stem + pat` into `stem + rep` when `pat` occurs only at the end |
| HashFile.ReadHashFile | reborn_onlinehashcracking/reborn_onlinehashcrack.py:60-77 | unreadable, empty and wrong-format files are told apart; content is accepted iff its stripped first line starts with `WPA*`, and exactly that line is returned |
| HashFile.AcceptedLineShape | reborn_onlinehashcracking/reborn_onlinehashcrack.py:64-73 | an accepted line starts with `WPA*`, has no line break and no surrounding whitespace |
| HashFile.ReadWrittenLine | reborn_onlinehashcracking/reborn_onlinehashcrack.py:64-73 | a file whose first line is a `WPA*` line, possibly padded, and anything after it reads back as exactly that line |
| HashFile.RejectsForeignFormat | reborn_onlinehashcracking/reborn_onlinehashcrack.py:69-72 | a first line that does not strip to a `WPA*` line is rejected |
| Seqs.Filter | reborn_onlinehashcracking/reborn_onlinehashcrack.py:155-159 | every kept element passes the test, and no more elements are kept than given |
| Seqs.FilterMembers | reborn_onlinehashcracking/reborn_onlinehashcrack.py:155-159 | an element is kept iff it occurs in the input and passes the test |
| Selection.Mark | reborn_onlinehashcracking/reborn_onlinehashcrack.py:188 | the marker name is exactly the file name followed by `.uploaded` |
| Selection.Candidates | reborn_onlinehashcracking/reborn_onlinehashcrack.py:154-165 | a name is a candidate iff it is listed, ends in `.22000`, has no listed marker and its `.pcap` name is whitelisted |
| Selection.CandidatesSinglePass | reborn_onlinehashcracking/reborn_onlinehashcrack.py:155-165 | the two comprehensions equal one order-preserving filter with the combined test |
| Selection.CandidatesInListingOrder | reborn_onlinehashcracking/reborn_onlinehashcrack.py:155-165 | candidates from an earlier part of the listing come before those from a later part |
| Selection.MarkerNeverCandidate | reborn_onlinehashcracking/reborn_onlinehashcrack.py:157 | a marker file is never itself a candidate |
| Selection.MarkedNotSelectedAgain | reborn_onlinehashcracking/reborn_onlinehashcrack.py:158 | a file whose marker is listed is never selected again |
| Selection.CaptureName | reborn_onlinehashcracking/reborn_onlinehashcrack.py:164 | the capture name replaces every `.22000` by `.pcap` (it is `Text.ReplaceAll`, whose result `ReplaceFirstOccurrence` and `ReplaceAbsent` fix occurrence by occurrence) and is never longer than the hash-file name; `CaptureNameOfPlainStem` gives `<stem>.pcap` for a plain stem |
| Selection.CaptureNameOfPlainStem | reborn_onlinehashcracking/reborn_onlinehashcrack.py:164 | `<stem>.22000` is whitelisted under `<stem>.pcap` when the stem holds no other `.22000` |
| Selection.CaptureNameReplacesEveryOccurrence | reborn_onlinehashcracking/reborn_onlinehashcrack.py:164 | `a.22000.22000` is whitelisted under `a.pcap.pcap` |
| Batch.TakeTurn | reborn_onlinehashcracking/reborn_onlinehashcrack.py:183-187 | a file is skipped exactly when its content fails validation; otherwise the line validation returned is the one submitted, the reply is the network's answer to that line, and the submission is `Submit` on that reply |
| Batch.UploadTurnContract | reborn_onlinehashcracking/reborn_onlinehashcrack.py:79-141 | the plugin's turn skips exactly the files that fail validation; each submission moves time forward, keeps the cap of 30 and the 12 s spacing, and an accepted upload becomes the new spacing reference |
| Batch.Process | reborn_onlinehashcracking/reborn_onlinehashcrack.py:176-191 | the loop reaches every candidate unless it breaks; it breaks only after a submission; `processed` equals the number of markers |
| Batch.InvalidSkipped | reborn_onlinehashcracking/reborn_onlinehashcrack.py:183-185 | a file that fails validation is skipped: nothing is submitted, marked or sent for it, and the loop goes on to the next candidate with the same quota, clock and pending 429 record |
| Batch.AcceptedContinues | reborn_onlinehashcracking/reborn_onlinehashcrack.py:187-189 | a submission returning true creates that file's marker, records its request time, and the loop continues with the next candidate from the state it left, keeping that candidate's 429 record |
| Batch.FirstFailureStops | reborn_onlinehashcracking/reborn_onlinehashcrack.py:187-191 | a submission returning false ends the batch at once, with that file the only one submitted and no marker created; the batch records the 429 answer's arrival time exactly when the reply was a 429 |
| Batch.AllAcceptedMarksAllValid | reborn_onlinehashcracking/reborn_onlinehashcrack.py:176-191 | with the plugin's own turn, when the service answers 200 to every request and the window has room for all valid candidates, the loop never breaks and submits and marks every valid candidate, in order |
| Batch.CountsAcceptedUploads | reborn_onlinehashcracking/reborn_onlinehashcrack.py:176-191 | the quota a batch leaves behind never has an earlier window, and while the window stays put the counter grows by exactly the number of markers created |
| Batch.RecordsEveryRequest | reborn_onlinehashcracking/reborn_onlinehashcrack.py:176-191 | `sendTimes` holds a time for every accepted upload and at most one per submitted file |
| Batch.LeavesLastUpload | reborn_onlinehashcracking/reborn_onlinehashcrack.py:176-191 | the spacing reference a batch leaves (`last_upload`) never moves back and is no earlier than the request time of any accepted upload of the batch |
| Batch.ThrottleLeavesCooldown | reborn_onlinehashcracking/reborn_onlinehashcrack.py:125-130 | a batch that ended on a 429 broke off, leaves `rate_limit_hit` set, and returns at least 300 s after the 429 arrived |
| Batch.CooldownBeforeRequests | reborn_onlinehashcracking/reborn_onlinehashcrack.py:91-95 | no request of a batch goes out before the cooldown pending at its start has been served |
| Batch.ClockAndCap | reborn_onlinehashcracking/reborn_onlinehashcrack.py:176-191 | time moves forward over a batch, and the cap of 30 still holds at its end |
| Batch.SubmitsValidReached | reborn_onlinehashcracking/reborn_onlinehashcrack.py:177-187 | the files submitted are exactly the valid ones among the candidates reached, in order; invalid files are never submitted |
| Batch.AbortsAtFailure | reborn_onlinehashcracking/reborn_onlinehashcrack.py:187-191 | after a break, the file that caused it is the last one reached and the last one submitted; no later candidate is submitted |
| Batch.MarksExactlyAccepted | reborn_onlinehashcracking/reborn_onlinehashcrack.py:187-189 | markers are created, in order, for every submitted file except the one that caused a break, and `processed` counts them; with `AcceptedContinues` and `FirstFailureStops` these are the files whose submission returned true |
| Batch.RequestsSpaced | reborn_onlinehashcracking/reborn_onlinehashcrack.py:177-191 | every request of a batch is at least 12 s after the previous one and after the last accepted upload before the batch |
| Batch.MarkAll | reborn_onlinehashcracking/reborn_onlinehashcrack.py:188 | one marker per name, in order |
| Plugin.Construct | reborn_onlinehashcracking/reborn_onlinehashcrack.py:14-21 | a new plugin is not ready and has an empty quota |
| Plugin.FirstMissing | reborn_onlinehashcracking/reborn_onlinehashcrack.py:31-35 | nothing is reported iff every required field is given; otherwise the first missing field is reported |
| Plugin.CheckConfig | reborn_onlinehashcracking/reborn_onlinehashcrack.py:31-41 | accepts iff email and api_key are both non-empty and the key starts with `sk_`; a missing email is reported before a missing key |
| Plugin.OnLoaded | reborn_onlinehashcracking/reborn_onlinehashcrack.py:29-41 | the plugin becomes ready iff the configuration passes; a refused one leaves it as it was |
| Plugin.OnInternetAvailable | reborn_onlinehashcracking/reborn_onlinehashcrack.py:143-199 | skipped iff not ready or busy; "no new handshakes" iff there are no candidates, and then nothing is sent; "Done" iff a marker was made, with that count; only candidates are submitted; the cap is preserved |
| Plugin.RunMarkersFollowSubmitted | reborn_onlinehashcracking/reborn_onlinehashcrack.py:186-189 | the i-th marker a call creates belongs to the i-th file it submitted |
| Plugin.RunMarkersAreNew | reborn_onlinehashcracking/reborn_onlinehashcrack.py:154-188 | markers created by a call did not exist before, and their files are not candidates on the next listing |
| Plugin.RunRequestsSpaced | reborn_onlinehashcracking/reborn_onlinehashcrack.py:173-191 | every request a call sends keeps the 12 s spacing, and the recorded times number at least the markers and at most the submitted files |
| Plugin.RunCountsUploads | reborn_onlinehashcracking/reborn_onlinehashcrack.py:143-199 | the quota a call leaves on the plugin never has an earlier window, and while the window stays put the counter grows by exactly the number of markers the call created |
| Plugin.RunAllAccepted | reborn_onlinehashcracking/reborn_onlinehashcrack.py:173-191 | for a ready plugin, when the service answers 200 to every request and the window has room, a call submits every valid candidate in listing order |
| Plugin.RunMarksAllAccepted | reborn_onlinehashcracking/reborn_onlinehashcrack.py:186-189 | under the same conditions, a call creates a marker for every valid candidate, in listing order |
| Plugin.RunLeavesLastUpload | reborn_onlinehashcracking/reborn_onlinehashcrack.py:143-199 | `last_upload` on the plugin never moves back over a call and is no earlier than any accepted upload's request time |
| Plugin.RunThrottleCarriesOver | reborn_onlinehashcracking/reborn_onlinehashcrack.py:143-199 | a call that ended on a 429 leaves `rate_limit_hit` set on the plugin and returns at least 300 s after that answer |
| Plugin.RunCooldownBeforeRequests | reborn_onlinehashcracking/reborn_onlinehashcrack.py:143-199 | a call that starts with `rate_limit_hit` set sends nothing until 300 s after its announcement pause |
| Plugin.Session | reborn_onlinehashcracking/reborn_onlinehashcrack.py:143-146 | one run per handler call; the first starts from the given plugin state, and each later one starts from the state the previous run left |
| Plugin.RefusedConfigStaysInactive | reborn_onlinehashcracking/reborn_onlinehashcrack.py:29-41 | after a refused configuration every later call is skipped, and nothing is submitted or marked |
| Plugin.NotReadyStaysInactive | reborn_onlinehashcracking/reborn_onlinehashcrack.py:145-146 | a plugin that is not ready stays inactive through any number of calls |
| Plugin.CapHoldsAcrossSession | reborn_onlinehashcracking/reborn_onlinehashcrack.py:84-119 | the hourly counter stays at most 30 after every call of a session |
| Plugin.ConsecutiveCallsSpaced | reborn_onlinehashcracking/reborn_onlinehashcrack.py:97-118 | over two handler calls in a row, every request of the second is at least 12 s after every upload the first got accepted |
| Plugin.ConsecutiveCallsThrottled | reborn_onlinehashcracking/reborn_onlinehashcrack.py:91-130 | over two handler calls in a row, the second starting once the first returned, a 429 that ended the first keeps every request of the second until 600 s after it arrived |
| Plugin.SessionSpacedAcrossCalls | reborn_onlinehashcracking/reborn_onlinehashcrack.py:97-101 | the 12 s spacing holds across calls: every request of a call is at least 12 s after every upload accepted by the previous call |
| Plugin.SessionThrottleDelaysNextCall | reborn_onlinehashcracking/reborn_onlinehashcrack.py:91-130 | when a call ends on a 429 and the next call starts after it returned, no request of the next call goes out until 600 s after the 429 arrived |

## Left out

- Display and logging (`_update_display`, `agent.view()`, `logging`, lines 51-58 and every display call). They only observe. The pauses they come with are kept as clock advances.
- `int(wait_time/60)` and `int(delay)` in status texts. This is display formatting.
- `requests.post` and the JSON body (lines 103-115). The network is the abstract `Reply`. A non-JSON or non-object error body makes `response.json().get` raise. That lands in the same `except` and is modelled like `ConnectionFailed`, which has the same effect.
- Floating-point `time.time()` and real sleeping. Time is integer seconds, and code other than sleeps and requests takes no time.
- The `threading.Lock` (lines 16, 145-148). It is reduced to the `busy` flag of the guard; threads are not modelled.
- `StatusFile` set-up and its `JSONDecodeError` handler (lines 23-27). This is persistence I/O, and the handler names an exception that is never imported. The unused `skip` set is left out too.
- `remove_whitelisted` internals and the `whitelist` option. They are an uninterpreted predicate `kept` on capture-file names.
- `os.listdir`, `open`, `agent.config()` and marker creation. The listing and contents are inputs, and a marker is the name `<file>.uploaded` added to the run's `markers`. Exceptions these raise, such as a missing directory or a marker that cannot be created, are not modelled.
- Exceptions raised by display calls inside the `try` of `_submit_hash` are not modelled. Such an exception would turn an accepted upload into a false return after the state had already been updated.
- Plugin.CheckConfig: option values are strings, and "falsy" means the empty string. Non-string TOML values such as `0` or `false` are not modelled.

=== FILE: batch.dfy ===
/** The upload loop of `on_internet_available`: candidates are taken in order;
    a file that fails validation is skipped, an accepted upload gets its marker,
    and the first submission that returns false ends the batch.

    The loop is written over one turn per file (read and validate, then submit),
    passed in as a function; `UploadTurn` is the plugin's own turn, and the two
    predicates `SkipsExactlyInvalid` and `KeepsPace` are all the loop's
    properties need to know about it. */
module Batch {
  import opened Wrappers
  import opened Seqs
  import opened RateControl
  import opened HashFile
  import opened Selection

  /** The outside world one batch sees. */
  datatype Env = Env(
    listing: seq<string>,                 // the handshake directory
    kept: string -> bool,                 // the whitelist, on capture-file names
    contents: string -> Option<string>,   // each file's text, `None` if unreadable
    network: (nat, string) -> Reply)      // the reply to the n-th submission of a line

  /** One turn of the loop: the file is skipped, or its line is submitted, the
      network answers `reply` should a request go out, and this is the outcome. */
  datatype Turn = InvalidFile | Submitted(line: string, reply: Reply, s: Submission)

  /** A turn for file `name`, given the quota state, the clock and the number
      of earlier submissions in the batch. */
  type TurnFn = (string, QuotaState, int, nat) -> Turn

  /** `_read_hash_file` followed, for a valid file, by `_submit_hash`. */
  function TakeTurn(name: string, contents: string -> Option<string>,
                    network: (nat, string) -> Reply,
                    q: QuotaState, clock: int, attempt: nat): (t: Turn)
    ensures t.InvalidFile? <==> !IsValidContent(contents(name))
    ensures t.Submitted? ==> t.line == ReadHashFile(contents(name)).value
    ensures t.Submitted? ==> t.reply == network(attempt, t.line)
    ensures t.Submitted? ==> t.s == Submit(q, clock, t.reply)
  {
    match ReadHashFile(contents(name))
    case Failure(_) => InvalidFile
    case Success(line) =>
      var reply := network(attempt, line);
      Submitted(line, reply, Submit(q, clock, reply))
  }

  function UploadTurn(env: Env): TurnFn
  {
    (name: string, q: QuotaState, clock: int, attempt: nat) => TakeTurn(name, env.contents, env.network, q, clock, attempt)
  }

  /** Files whose content passes validation. */
  function ValidName(contents: string -> Option<string>): string -> bool
  {
    f => IsValidContent(contents(f))
  }

  /** The turn skips exactly the files `valid` rejects. */
  ghost predicate SkipsExactlyInvalid(turn: TurnFn, valid: string -> bool)
  {
    forall n, q, c, a :: turn(n, q, c, a).InvalidFile? <==> !valid(n)
  }

  /** What one submission guarantees: time moves forward, the cap holds, the
      request keeps the spacing, an acceptance becomes the new reference, and
      the window never moves back, counting exactly the acceptance while it
      stays put; a request waits out any pending cooldown, and a 429 leaves the
      cooldown pending. */
  predicate Paced(q: QuotaState, clock: int, reply: Reply, s: Submission)
  {
    && s.clock >= clock
    && (q.uploadsThisHour <= HourlyCap ==> s.quota.uploadsThisHour <= HourlyCap)
    && (s.sentAt.Some? ==> s.sentAt.value >= q.lastUpload + MinSpacing)
    && (s.accepted ==> s.sentAt.Some? && s.quota.lastUpload >= s.sentAt.value)
    && s.quota.lastHourReset >= q.lastHourReset
    && (s.quota.lastHourReset == q.lastHourReset ==>
          s.quota.uploadsThisHour == q.uploadsThisHour + (if s.accepted then 1 else 0))
    && s.quota.lastUpload >= q.lastUpload
    && (s.sentAt.Some? ==>
          s.sentAt.value >= clock + CooldownWait(q) && s.clock >= s.sentAt.value + reply.latency)
    && (s.sentAt.Some? && reply.response == Status(429) ==>
          s.quota.rateLimitHit && s.clock >= s.sentAt.value + reply.latency + Cooldown)
  }

  ghost predicate KeepsPace(turn: TurnFn)
  {
    forall n, q, c, a :: turn(n, q, c, a).Submitted? ==> Paced(q, c, turn(n, q, c, a).reply, turn(n, q, c, a).s)
  }

  /** The plugin's own turn skips exactly the invalid files and keeps the pace. */
  lemma UploadTurnContract(env: Env)
    ensures SkipsExactlyInvalid(UploadTurn(env), ValidName(env.contents))
    ensures KeepsPace(UploadTurn(env))
  {
    forall n, q, c, a ensures UploadTurn(env)(n, q, c, a).InvalidFile? <==> !ValidName(env.contents)(n) {
      assert UploadTurn(env)(n, q, c, a) == TakeTurn(n, env.contents, env.network, q, c, a);
    }
    forall n, q, c, a | UploadTurn(env)(n, q, c, a).Submitted?
      ensures Paced(q, c, UploadTurn(env)(n, q, c, a).reply, UploadTurn(env)(n, q, c, a).s)
    {
      var t := TakeTurn(n, env.contents, env.network, q, c, a);
      assert UploadTurn(env)(n, q, c, a) == t;
      assert t.s == Submit(q, c, t.reply);
    }
  }

  /** Where a batch got to. */
  datatype Progress = Progress(
    quota: QuotaState,
    clock: int,
    submitted: seq<string>,   // files handed to `_submit_hash`, in order
    markers: seq<string>,     // marker files created, in order
    sendTimes: seq<int>,      // times requests went out, in order
    processed: nat,           // the loop's `processed` counter
    consumed: nat,            // candidates the loop reached
    aborted: bool,            // left the loop through `break`
    throttledAt: Option<int>) // when the batch ended on a 429: the time that answer came

  /** The files a batch uploaded successfully: every submitted one except a
      final failure. */
  function Succeeded(g: Progress): seq<string>
  {
    if g.aborted && |g.submitted| > 0 then g.submitted[..|g.submitted| - 1] else g.submitted
  }

  /** The marker of each name, in order. */
  function MarkAll(names: seq<string>): (ms: seq<string>)
    ensures |ms| == |names|
    ensures forall i :: 0 <= i < |names| ==> ms[i] == Mark(names[i])
  {
    if |names| == 0 then [] else [Mark(names[0])] + MarkAll(names[1..])
  }

  /** Requests spaced out: the first at least `MinSpacing` after `last`, and each
      later one at least `MinSpacing` after its predecessor. */
  predicate SpacedAfter(times: seq<int>, last: int)
  {
    && (|times| > 0 ==> times[0] >= last + MinSpacing)
    && forall i :: 0 <= i < |times| - 1 ==> times[i + 1] >= times[i] + MinSpacing
  }

  /** Every time in `times` is at least `bound`. */
  predicate AllAtLeast(times: seq<int>, bound: int)
  {
    forall k :: 0 <= k < |times| ==> times[k] >= bound
  }

  /** Spaced requests all come at least `MinSpacing` after `last`. */
  lemma {:induction false} SpacedAfterAll(times: seq<int>, last: int)
    requires SpacedAfter(times, last)
    ensures forall k :: 0 <= k < |times| ==> times[k] >= last + MinSpacing
    decreases |times|
  {
    if |times| > 1 {
      var init := times[..|times| - 1];
      assert SpacedAfter(init, last);
      SpacedAfterAll(init, last);
      assert times[|times| - 1] >= init[|times| - 2] + MinSpacing;
    }
  }

  /** The loop over `cands`, starting at time `clock` after `attempt` earlier
      submissions. */
  function Process(cands: seq<string>, turn: TurnFn,
                   q: QuotaState, clock: int, attempt: nat): (g: Progress)
    ensures g.consumed <= |cands| && |g.submitted| <= g.consumed
    ensures !g.aborted ==> g.consumed == |cands|
    ensures g.aborted ==> |g.submitted| > 0
    ensures g.processed == |g.markers| == |Succeeded(g)|
    decreases |cands|
  {
    if |cands| == 0 then Progress(q, clock, [], [], [], 0, 0, false, None)
    else
      var name := cands[0];
      match turn(name, q, clock, attempt)
      case InvalidFile =>
        var rest := Process(cands[1..], turn, q, clock, attempt);
        rest.(consumed := rest.consumed + 1)
      case Submitted(_, reply, s) =>
        var sent := if s.sentAt.Some? then [s.sentAt.value] else [];
        if s.accepted then
          var rest := Process(cands[1..], turn, s.quota, s.clock, attempt + 1);
          rest.(submitted := [name] + rest.submitted,
                markers := [Mark(name)] + rest.markers,
                sendTimes := sent + rest.sendTimes,
                processed := rest.processed + 1,
                consumed := rest.consumed + 1)
        else
          var throttled := if s.sentAt.Some? && reply.response == Status(429)
                           then Some(s.sentAt.value + reply.latency) else None;
          Progress(s.quota, s.clock, [name], [], sent, 0, 1, true, throttled)
  }

  /** A file that fails validation is skipped: the loop goes on to the next
      candidate with the same quota, clock and submission count. */
  lemma InvalidSkipped(cands: seq<string>, turn: TurnFn, q: QuotaState, clock: int, attempt: nat)
    requires |cands| > 0 && turn(cands[0], q, clock, attempt).InvalidFile?
    ensures var g, rest := Process(cands, turn, q, clock, attempt), Process(cands[1..], turn, q, clock, attempt);
      && g.submitted == rest.submitted && g.markers == rest.markers
      && g.sendTimes == rest.sendTimes
      && g.aborted == rest.aborted && g.consumed == rest.consumed + 1
      && g.quota == rest.quota && g.clock == rest.clock && g.throttledAt == rest.throttledAt
  {
  }

  /** A submission that returns true creates that file's marker, and the loop
      goes on to the next candidate from the state the submission left. */
  lemma AcceptedContinues(cands: seq<string>, turn: TurnFn, q: QuotaState, clock: int, attempt: nat)
    requires |cands| > 0
    requires var t := turn(cands[0], q, clock, attempt); t.Submitted? && t.s.accepted
    ensures var t := turn(cands[0], q, clock, attempt);
      var g, rest := Process(cands, turn, q, clock, attempt),
                     Process(cands[1..], turn, t.s.quota, t.s.clock, attempt + 1);
      && g.submitted == [cands[0]] + rest.submitted
      && g.markers == [Mark(cands[0])] + rest.markers
      && (t.s.sentAt.Some? ==> g.sendTimes == [t.s.sentAt.value] + rest.sendTimes)
      && g.aborted == rest.aborted && g.consumed == rest.consumed + 1
      && g.quota == rest.quota && g.clock == rest.clock && g.throttledAt == rest.throttledAt
  {
  }

  /** A submission that returns false ends the batch at once: that file is the
      only one submitted, no marker is created, and the state is the one the
      failed submission left. */
  lemma FirstFailureStops(cands: seq<string>, turn: TurnFn, q: QuotaState, clock: int, attempt: nat)
    requires |cands| > 0
    requires var t := turn(cands[0], q, clock, attempt); t.Submitted? && !t.s.accepted
    ensures var t := turn(cands[0], q, clock, attempt);
      var g := Process(cands, turn, q, clock, attempt);
      && g.aborted && g.consumed == 1
      && g.submitted == [cands[0]] && g.markers == [] && g.processed == 0
      && g.sendTimes == (if t.s.sentAt.Some? then [t.s.sentAt.value] else [])
      && g.quota == t.s.quota && g.clock == t.s.clock
      && g.throttledAt == (if t.s.sentAt.Some? && t.reply.response == Status(429)
                           then Some(t.s.sentAt.value + t.reply.latency) else None)
  {
  }

  /** When the service accepts every request and the window has room for all
      valid candidates, the plugin's loop never breaks: it reaches all
      candidates, skips the invalid ones, and uploads and marks every valid
      one, in order. For example, with valid A, invalid B and valid C, both A
      and C are submitted and marked. */
  lemma {:induction false} AllAcceptedMarksAllValid(cands: seq<string>, env: Env,
                                                    q: QuotaState, clock: int, attempt: nat)
    requires forall a: nat, l: string :: env.network(a, l).response == Status(200)
    requires q.uploadsThisHour + |Filter(ValidName(env.contents), cands)| <= HourlyCap
    ensures var g := Process(cands, UploadTurn(env), q, clock, attempt);
      var valid := Filter(ValidName(env.contents), cands);
      && !g.aborted && g.consumed == |cands|
      && g.submitted == valid && g.markers == MarkAll(valid)
    decreases |cands|
  {
    if |cands| > 0 {
      var valid := ValidName(env.contents);
      var turn := UploadTurn(env);
      var t := turn(cands[0], q, clock, attempt);
      assert t == TakeTurn(cands[0], env.contents, env.network, q, clock, attempt);
      assert cands == [cands[0]] + cands[1..];
      FilterCons(valid, cands[0], cands[1..]);
      if t.InvalidFile? {
        AllAcceptedMarksAllValid(cands[1..], env, q, clock, attempt);
        InvalidSkipped(cands, turn, q, clock, attempt);
      } else {
        assert valid(cands[0]);
        assert t.s == Submit(q, clock, t.reply);
        assert ResetWindow(q, clock).uploadsThisHour < HourlyCap;
        assert t.s.accepted;
        AllAcceptedMarksAllValid(cands[1..], env, t.s.quota, t.s.clock, attempt + 1);
        AcceptedContinues(cands, turn, q, clock, attempt);
        MarkAllCons(cands[0], Filter(valid, cands[1..]));
      }
    }
  }

  /** The quota a batch leaves behind accounts for its uploads: the window
      never moves back, and while it stays put the counter grows by exactly the
      number of markers created. */
  lemma {:induction false} CountsAcceptedUploads(cands: seq<string>, turn: TurnFn,
                                                 q: QuotaState, clock: int, attempt: nat)
    requires KeepsPace(turn)
    ensures var g := Process(cands, turn, q, clock, attempt);
      && g.quota.lastHourReset >= q.lastHourReset
      && (g.quota.lastHourReset == q.lastHourReset ==>
            g.quota.uploadsThisHour == q.uploadsThisHour + |g.markers|)
    decreases |cands|
  {
    if |cands| > 0 {
      var t := turn(cands[0], q, clock, attempt);
      if t.InvalidFile? {
        CountsAcceptedUploads(cands[1..], turn, q, clock, attempt);
        InvalidSkipped(cands, turn, q, clock, attempt);
      } else {
        assert Paced(q, clock, t.reply, t.s);
        if t.s.accepted {
          CountsAcceptedUploads(cands[1..], turn, t.s.quota, t.s.clock, attempt + 1);
          AcceptedContinues(cands, turn, q, clock, attempt);
        } else {
          FirstFailureStops(cands, turn, q, clock, attempt);
        }
      }
    }
  }

  /** `sendTimes` records every request: each accepted upload sent one, and no
      file sent more than one. */
  lemma {:induction false} RecordsEveryRequest(cands: seq<string>, turn: TurnFn,
                                               q: QuotaState, clock: int, attempt: nat)
    requires KeepsPace(turn)
    ensures var g := Process(cands, turn, q, clock, attempt);
      |Succeeded(g)| <= |g.sendTimes| <= |g.submitted|
    decreases |cands|
  {
    if |cands| > 0 {
      var t := turn(cands[0], q, clock, attempt);
      if t.InvalidFile? {
        RecordsEveryRequest(cands[1..], turn, q, clock, attempt);
        InvalidSkipped(cands, turn, q, clock, attempt);
      } else {
        assert Paced(q, clock, t.reply, t.s);
        if t.s.accepted {
          RecordsEveryRequest(cands[1..], turn, t.s.quota, t.s.clock, attempt + 1);
          AcceptedContinues(cands, turn, q, clock, attempt);
        } else {
          FirstFailureStops(cands, turn, q, clock, attempt);
        }
      }
    }
  }

  /** The spacing reference a batch leaves behind never moves back, and it is
      no earlier than the request time of any upload the batch got accepted. */
  lemma {:induction false} LeavesLastUpload(cands: seq<string>, turn: TurnFn,
                                            q: QuotaState, clock: int, attempt: nat)
    requires KeepsPace(turn)
    ensures var g := Process(cands, turn, q, clock, attempt);
      && g.quota.lastUpload >= q.lastUpload
      && forall i :: 0 <= i < |g.markers| && i < |g.sendTimes| ==> g.quota.lastUpload >= g.sendTimes[i]
    decreases |cands|
  {
    if |cands| > 0 {
      var t := turn(cands[0], q, clock, attempt);
      if t.InvalidFile? {
        LeavesLastUpload(cands[1..], turn, q, clock, attempt);
        InvalidSkipped(cands, turn, q, clock, attempt);
      } else {
        assert Paced(q, clock, t.reply, t.s);
        if t.s.accepted {
          LeavesLastUpload(cands[1..], turn, t.s.quota, t.s.clock, attempt + 1);
          AcceptedContinues(cands, turn, q, clock, attempt);
        } else {
          FirstFailureStops(cands, turn, q, clock, attempt);
        }
      }
    }
  }

  /** A batch that ended on a 429 leaves the cooldown pending, and returns no
      sooner than one cooldown after that answer. */
  lemma {:induction false} ThrottleLeavesCooldown(cands: seq<string>, turn: TurnFn,
                                                  q: QuotaState, clock: int, attempt: nat)
    requires KeepsPace(turn)
    ensures var g := Process(cands, turn, q, clock, attempt);
      g.throttledAt.Some? ==>
        g.aborted && g.quota.rateLimitHit && g.clock >= g.throttledAt.value + Cooldown
    decreases |cands|
  {
    if |cands| > 0 {
      var t := turn(cands[0], q, clock, attempt);
      if t.InvalidFile? {
        ThrottleLeavesCooldown(cands[1..], turn, q, clock, attempt);
        InvalidSkipped(cands, turn, q, clock, attempt);
      } else {
        assert Paced(q, clock, t.reply, t.s);
        if t.s.accepted {
          ThrottleLeavesCooldown(cands[1..], turn, t.s.quota, t.s.clock, attempt + 1);
          AcceptedContinues(cands, turn, q, clock, attempt);
        } else {
          FirstFailureStops(cands, turn, q, clock, attempt);
        }
      }
    }
  }

  /** No request of a batch goes out before the cooldown pending at its start
      has been served. */
  lemma {:induction false} CooldownBeforeRequests(cands: seq<string>, turn: TurnFn,
                                                  q: QuotaState, clock: int, attempt: nat)
    requires KeepsPace(turn)
    ensures var g := Process(cands, turn, q, clock, attempt);
      AllAtLeast(g.sendTimes, clock + CooldownWait(q))
    decreases |cands|
  {
    if |cands| > 0 {
      var t := turn(cands[0], q, clock, attempt);
      if t.InvalidFile? {
        CooldownBeforeRequests(cands[1..], turn, q, clock, attempt);
        InvalidSkipped(cands, turn, q, clock, attempt);
      } else {
        assert Paced(q, clock, t.reply, t.s);
        if t.s.accepted {
          CooldownBeforeRequests(cands[1..], turn, t.s.quota, t.s.clock, attempt + 1);
          AcceptedContinues(cands, turn, q, clock, attempt);
        } else {
          FirstFailureStops(cands, turn, q, clock, attempt);
        }
      }
    }
  }

  /** Time moves forward over a batch and the hourly cap still holds at its end. */
  lemma {:induction false} ClockAndCap(cands: seq<string>, turn: TurnFn,
                                       q: QuotaState, clock: int, attempt: nat)
    requires KeepsPace(turn)
    ensures var g := Process(cands, turn, q, clock, attempt);
      && g.clock >= clock
      && (q.uploadsThisHour <= HourlyCap ==> g.quota.uploadsThisHour <= HourlyCap)
    decreases |cands|
  {
    if |cands| > 0 {
      match turn(cands[0], q, clock, attempt)
      case InvalidFile =>
        ClockAndCap(cands[1..], turn, q, clock, attempt);
      case Submitted(_, reply, s) =>
        assert Paced(q, clock, reply, s);
        if s.accepted {
          ClockAndCap(cands[1..], turn, s.quota, s.clock, attempt + 1);
        }
    }
  }

  /** One more candidate reached: the filtered prefix grows by that candidate
      when it passes. */
  lemma FilterPrefixStep(valid: string -> bool, cands: seq<string>, c: nat, sub: seq<string>)
    requires c < |cands|
    requires sub == Filter(valid, cands[1..][..c])
    ensures (if valid(cands[0]) then [cands[0]] + sub else sub) == Filter(valid, cands[..c + 1])
  {
    TakeCons(cands, c);
    FilterCons(valid, cands[0], cands[1..][..c]);
  }

  /** The loop submits exactly the valid files among the candidates it
      reached: invalid files are never submitted. */
  lemma {:induction false} SubmitsValidReached(cands: seq<string>, turn: TurnFn, valid: string -> bool,
                                               q: QuotaState, clock: int, attempt: nat)
    requires SkipsExactlyInvalid(turn, valid)
    ensures var g := Process(cands, turn, q, clock, attempt);
      g.submitted == Filter(valid, cands[..g.consumed])
    decreases |cands|
  {
    if |cands| == 0 {
      assert cands[..0] == [];
    } else {
      var g := Process(cands, turn, q, clock, attempt);
      var name := cands[0];
      var t := turn(name, q, clock, attempt);
      assert t.InvalidFile? <==> !valid(name);
      if t.InvalidFile? {
        var rest := Process(cands[1..], turn, q, clock, attempt);
        SubmitsValidReached(cands[1..], turn, valid, q, clock, attempt);
        assert g.submitted == rest.submitted && g.consumed == rest.consumed + 1;
        FilterPrefixStep(valid, cands, rest.consumed, rest.submitted);
      } else if t.s.accepted {
        var rest := Process(cands[1..], turn, t.s.quota, t.s.clock, attempt + 1);
        SubmitsValidReached(cands[1..], turn, valid, t.s.quota, t.s.clock, attempt + 1);
        assert g.submitted == [name] + rest.submitted && g.consumed == rest.consumed + 1;
        FilterPrefixStep(valid, cands, rest.consumed, rest.submitted);
      } else {
        assert g.submitted == [name] && g.consumed == 1;
        assert cands[1..][..0] == [];
        FilterPrefixStep(valid, cands, 0, []);
      }
    }
  }

  /** A batch that breaks out of the loop does so at the file whose submission
      failed: it is the last file the loop reached and the last one submitted,
      so nothing after the first failure is submitted. */
  lemma {:induction false} AbortsAtFailure(cands: seq<string>, turn: TurnFn,
                                           q: QuotaState, clock: int, attempt: nat)
    ensures var g := Process(cands, turn, q, clock, attempt);
      g.aborted ==> g.consumed > 0 && g.submitted[|g.submitted| - 1] == cands[g.consumed - 1]
    decreases |cands|
  {
    if |cands| > 0 {
      var g := Process(cands, turn, q, clock, attempt);
      var t := turn(cands[0], q, clock, attempt);
      if t.InvalidFile? {
        var rest := Process(cands[1..], turn, q, clock, attempt);
        AbortsAtFailure(cands[1..], turn, q, clock, attempt);
        assert g == rest.(consumed := rest.consumed + 1);
        if rest.aborted {
          assert cands[1..][rest.consumed - 1] == cands[g.consumed - 1];
        }
      } else if t.s.accepted {
        var rest := Process(cands[1..], turn, t.s.quota, t.s.clock, attempt + 1);
        AbortsAtFailure(cands[1..], turn, t.s.quota, t.s.clock, attempt + 1);
        assert g.submitted == [cands[0]] + rest.submitted;
        assert g.consumed == rest.consumed + 1 && g.aborted == rest.aborted;
        if rest.aborted {
          assert cands[1..][rest.consumed - 1] == cands[g.consumed - 1];
          assert g.submitted[|g.submitted| - 1] == rest.submitted[|rest.submitted| - 1];
        }
      }
    }
  }

  /** Marking a list with a first name marks that name first. */
  lemma MarkAllCons(name: string, names: seq<string>)
    ensures MarkAll([name] + names) == [Mark(name)] + MarkAll(names)
  {
    assert ([name] + names)[1..] == names;
  }

  /** Markers are created for exactly the files whose submission returned true,
      in order, and `processed` counts them. */
  lemma {:induction false} MarksExactlyAccepted(cands: seq<string>, turn: TurnFn,
                                                q: QuotaState, clock: int, attempt: nat)
    ensures var g := Process(cands, turn, q, clock, attempt);
      && g.markers == MarkAll(Succeeded(g))
      && g.processed == |g.markers|
    decreases |cands|
  {
    if |cands| > 0 {
      var g := Process(cands, turn, q, clock, attempt);
      var t := turn(cands[0], q, clock, attempt);
      if t.InvalidFile? {
        MarksExactlyAccepted(cands[1..], turn, q, clock, attempt);
      } else if t.s.accepted {
        var rest := Process(cands[1..], turn, t.s.quota, t.s.clock, attempt + 1);
        MarksExactlyAccepted(cands[1..], turn, t.s.quota, t.s.clock, attempt + 1);
        assert g.markers == [Mark(cands[0])] + rest.markers;
        assert Succeeded(g) == [cands[0]] + Succeeded(rest);
        MarkAllCons(cands[0], Succeeded(rest));
      } else {
        assert Succeeded(g) == [];
      }
    }
  }

  /** Every request of a batch respects the minimum spacing, counted from the
      last accepted upload before the batch and from each other. */
  lemma {:induction false} RequestsSpaced(cands: seq<string>, turn: TurnFn,
                                          q: QuotaState, clock: int, attempt: nat)
    requires KeepsPace(turn)
    ensures SpacedAfter(Process(cands, turn, q, clock, attempt).sendTimes, q.lastUpload)
    decreases |cands|
  {
    if |cands| > 0 {
      var name := cands[0];
      match turn(name, q, clock, attempt)
      case InvalidFile =>
        RequestsSpaced(cands[1..], turn, q, clock, attempt);
      case Submitted(_, reply, s) =>
        assert Paced(q, clock, reply, s);
        if s.accepted {
          RequestsSpaced(cands[1..], turn, s.quota, s.clock, attempt + 1);
          var rest := Process(cands[1..], turn, s.quota, s.clock, attempt + 1);
          var g := Process(cands, turn, q, clock, attempt);
          assert g.sendTimes == [s.sentAt.value] + rest.sendTimes;
        }
    }
  }
}

=== FILE: hash_file.dfy ===
/** Reading and validating one hash file (`_read_hash_file`): only the first
    line counts, stripped of whitespace, and it must be a hashcat mode-22000
    line, i.e. start with `WPA*`. */
module HashFile {
  import opened Wrappers
  import opened Text

  const HashPrefix: string := "WPA*"

  /** Why a file was skipped; each reason shows a different face on the display. */
  datatype ReadError = Unreadable | EmptyLine | BadPrefix

  /** Validate a file's content; `None` stands for a file that could not be
      opened or decoded. */
  function ReadHashFile(content: Option<string>): (r: Result<string, ReadError>)
    ensures r == Failure(Unreadable) <==> content.None?
    ensures r == Failure(EmptyLine) <==> content.Some? && AllSpace(FirstLine(content.value))
    // accepted exactly when the stripped first line is a `WPA*` line, which is returned
    ensures r.Success? <==> content.Some? && StartsWith(Strip(FirstLine(content.value)), HashPrefix)
    ensures r.Success? ==> r.value == Strip(FirstLine(content.value))
  {
    match content
    case None => Failure(Unreadable)
    case Some(text) =>
      var line := Strip(FirstLine(text));
      if line == [] then Failure(EmptyLine)
      else if !StartsWith(line, HashPrefix) then Failure(BadPrefix)
      else Success(line)
  }

  /** Stripping a line cannot introduce a line break. */
  lemma StrippedLineHasNoBreak(line: string)
    requires NoLineBreak(line)
    ensures NoLineBreak(Strip(line))
  {
    var r, front := Strip(line), LeadingPad(line);
    StripRemovesOnlyPadding(line);
    forall k | 0 <= k < |r| ensures !IsLineBreak(r[k]) {
      assert r[k] == line[|front| + k];
    }
  }

  /** An accepted line is a non-empty `WPA*` line with no line break and no
      surrounding whitespace. */
  lemma AcceptedLineShape(content: Option<string>)
    requires ReadHashFile(content).Success?
    ensures var line := ReadHashFile(content).value;
      && StartsWith(line, HashPrefix) && NoLineBreak(line)
      && !IsSpace(line[0]) && !IsSpace(line[|line| - 1])
  {
    StrippedLineHasNoBreak(FirstLine(content.value));
  }

  /** Content that passes validation. */
  predicate IsValidContent(content: Option<string>)
  {
    ReadHashFile(content).Success?
  }

  /** A file holding `line`, optionally indented or padded, followed by a line
      break and anything at all, reads back as exactly `line`. */
  lemma {:induction false} ReadWrittenLine(pad: string, line: string, trail: string,
                                           brk: char, rest: string)
    requires AllSpace(pad) && AllSpace(trail)
    requires NoLineBreak(pad) && NoLineBreak(line) && NoLineBreak(trail)
    requires StartsWith(line, HashPrefix) && !IsSpace(line[|line| - 1])
    requires IsLineBreak(brk)
    ensures ReadHashFile(Some(pad + line + trail + [brk] + rest)) == Success(line)
  {
    var text := pad + line + trail + [brk] + rest;
    var head := pad + line + trail;
    assert text == head + ([brk] + rest);
    FirstLineOfJoin(head, [brk] + rest);
    assert line[0] == 'W';
    StripPadded(pad, line, trail);
  }

  /** The first line of `head + tail` is `head` when `head` has no line break
      and `tail` starts with one. */
  lemma {:induction false} FirstLineOfJoin(head: string, tail: string)
    requires NoLineBreak(head)
    requires tail != [] && IsLineBreak(tail[0])
    ensures FirstLine(head + tail) == head
  {
    assert (head + tail)[|head|] == tail[0];
  }

  /** A file whose first non-blank text does not begin with `WPA*` is rejected,
      whatever follows. */
  lemma RejectsForeignFormat(content: string)
    requires !StartsWith(Strip(FirstLine(content)), HashPrefix)
    ensures ReadHashFile(Some(content)).Failure?
  {
  }
}

=== FILE: plugin.dfy ===
/** The plugin object: the configuration gate run when it is loaded and the
    handler run whenever the unit has internet access. */
module Plugin {
  import opened Wrappers
  import opened Text
  import opened Seqs
  import opened RateControl
  import opened Selection
  import opened Batch

  const RequiredFields: seq<string> := ["email", "api_key"]
  const KeyPrefix: string := "sk_"
  /** Pauses that keep a status on the display. */
  const IdlePause: nat := 2
  const AnnouncePause: nat := 2
  const FinishPause: nat := 3

  /** The plugin's state that outlives one handler call. */
  datatype PluginState = PluginState(ready: bool, quota: QuotaState)

  /** A freshly constructed plugin: not ready, quota window opened now. */
  function Construct(now: int): (p: PluginState)
    ensures !p.ready && p.quota.uploadsThisHour == 0 && !p.quota.rateLimitHit
  {
    PluginState(false, InitialQuota(now))
  }

  /** A configuration value counts as given when present and non-empty. */
  predicate Given(options: map<string, string>, field: string)
  {
    field in options && options[field] != ""
  }

  /** The first of `fields` that is not given, in order. */
  function FirstMissing(options: map<string, string>, fields: seq<string>): (r: Option<string>)
    ensures r.None? <==> forall i :: 0 <= i < |fields| ==> Given(options, fields[i])
    ensures r.Some? ==> r.value in fields && !Given(options, r.value)
    // the reported field is the first one missing
    ensures r.Some? ==>
      forall i :: (0 <= i < |fields| && !Given(options, fields[i])
                   && forall j :: 0 <= j < i ==> Given(options, fields[j]))
                  ==> fields[i] == r.value
  {
    if |fields| == 0 then None
    else if !Given(options, fields[0]) then Some(fields[0])
    else FirstMissing(options, fields[1..])
  }

  /** Why the configuration was refused. */
  datatype ConfigError = MissingField(field: string) | BadKeyPrefix

  /** The checks of `on_loaded`. */
  function CheckConfig(options: map<string, string>): (r: Outcome<ConfigError>)
    ensures r.Pass? <==> Given(options, "email") && Given(options, "api_key")
                         && StartsWith(options["api_key"], KeyPrefix)
    ensures r == Fail(MissingField("email")) <==> !Given(options, "email")
    ensures r == Fail(MissingField("api_key")) <==> Given(options, "email") && !Given(options, "api_key")
  {
    match FirstMissing(options, RequiredFields)
    case Some(field) => Fail(MissingField(field))
    case None =>
      assert Given(options, RequiredFields[0]) && Given(options, RequiredFields[1]);
      if !StartsWith(options["api_key"], KeyPrefix) then Fail(BadKeyPrefix) else Pass
  }

  /** `on_loaded`: the plugin becomes ready only on an accepted configuration;
      a refused one leaves it as it was. */
  function OnLoaded(p: PluginState, options: map<string, string>): (r: PluginState)
    ensures r.ready <==> p.ready || CheckConfig(options).Pass?
    ensures r.quota == p.quota
  {
    if CheckConfig(options).Pass? then p.(ready := true) else p
  }

  /** How a call of the handler ended, as shown on the display. */
  datatype Status =
    | Skipped          // not ready, or a previous call still holds the lock
    | NoNewHandshakes  // nothing to upload
    | Done(uploaded: nat)
    | NoUploads

  /** What one call of the handler did. */
  datatype Run = Run(
    status: Status,
    plugin: PluginState,
    clock: int,
    submitted: seq<string>,
    markers: seq<string>,
    sendTimes: seq<int>,
    throttledAt: Option<int>)   // when the batch ended on a 429: the time that answer came

  /** `on_internet_available` at time `now`; `busy` says the lock is held. */
  function OnInternetAvailable(p: PluginState, busy: bool, env: Env, now: int): (r: Run)
    ensures r.plugin.ready == p.ready && r.clock >= now
    // the guard
    ensures r.status.Skipped? <==> !p.ready || busy
    ensures r.status.Skipped? ==> r.plugin == p && r.clock == now && r.submitted == [] && r.markers == []
    // no work
    ensures r.status.NoNewHandshakes? <==> p.ready && !busy && Candidates(env.listing, env.kept) == []
    ensures r.status.NoNewHandshakes? ==> r.plugin == p && r.submitted == []
    // the summary counts the markers created
    ensures r.status.Done? <==> |r.markers| > 0
    ensures r.status.Done? ==> r.status.uploaded == |r.markers|
    ensures r.status.NoUploads? ==> p.ready && !busy && r.markers == []
    // only candidates are submitted, and markers are new files
    ensures forall f :: f in r.submitted ==> f in Candidates(env.listing, env.kept)
    // the cap holds across calls
    ensures p.quota.uploadsThisHour <= HourlyCap ==> r.plugin.quota.uploadsThisHour <= HourlyCap
  {
    if !p.ready || busy then Run(Skipped, p, now, [], [], [], None)
    else
      var cands := Candidates(env.listing, env.kept);
      if |cands| == 0 then Run(NoNewHandshakes, p, now + IdlePause, [], [], [], None)
      else
        var g := Process(cands, UploadTurn(env), p.quota, now + AnnouncePause, 0);
        UploadTurnContract(env);
        ClockAndCap(cands, UploadTurn(env), p.quota, now + AnnouncePause, 0);
        SubmitsValidReached(cands, UploadTurn(env), ValidName(env.contents), p.quota, now + AnnouncePause, 0);
        FilterMembers(ValidName(env.contents), cands[..g.consumed]);
        assert forall f :: f in cands[..g.consumed] ==> f in cands;
        Run(if g.processed > 0 then Done(g.processed) else NoUploads,
            p.(quota := g.quota), g.clock + FinishPause, g.submitted, g.markers, g.sendTimes,
            g.throttledAt)
  }

  /** The i-th marker a handler call creates belongs to the i-th file it
      submitted. */
  lemma RunMarkersFollowSubmitted(p: PluginState, busy: bool, env: Env, now: int)
    ensures var r := OnInternetAvailable(p, busy, env, now);
      && |r.markers| <= |r.submitted|
      && forall i :: 0 <= i < |r.markers| ==> r.markers[i] == Mark(r.submitted[i])
  {
    if p.ready && !busy {
      var cands := Candidates(env.listing, env.kept);
      if |cands| > 0 {
        var g := Process(cands, UploadTurn(env), p.quota, now + AnnouncePause, 0);
        MarksExactlyAccepted(cands, UploadTurn(env), p.quota, now + AnnouncePause, 0);
        assert forall i :: 0 <= i < |Succeeded(g)| ==> Succeeded(g)[i] == g.submitted[i];
      }
    }
  }

  /** A batch's bookkeeping seen from the handler: the markers created are new
      files, one per accepted upload, and no file that got a marker is ever a
      candidate again. */
  lemma RunMarkersAreNew(p: PluginState, busy: bool, env: Env, now: int)
    ensures var r := OnInternetAvailable(p, busy, env, now);
      && (forall m :: m in r.markers ==> m !in env.listing)
      && (forall f :: Mark(f) in r.markers ==> f !in Candidates(env.listing + r.markers, env.kept))
  {
    var r := OnInternetAvailable(p, busy, env, now);
    RunMarkersFollowSubmitted(p, busy, env, now);
    forall m | m in r.markers ensures m !in env.listing {
      var i :| 0 <= i < |r.markers| && r.markers[i] == m;
      var f := r.submitted[i];
      assert f in Candidates(env.listing, env.kept);
    }
    forall f | Mark(f) in r.markers ensures f !in Candidates(env.listing + r.markers, env.kept) {
      MarkedNotSelectedAgain(env.listing, r.markers, env.kept, f);
    }
  }

  /** Every request a handler call sends keeps the minimum spacing, counted
      from the last accepted upload before the call; `sendTimes` holds one time
      per accepted upload and at most one per submitted file. */
  lemma RunRequestsSpaced(p: PluginState, busy: bool, env: Env, now: int)
    ensures var r := OnInternetAvailable(p, busy, env, now);
      && SpacedAfter(r.sendTimes, p.quota.lastUpload)
      && |r.markers| <= |r.sendTimes| <= |r.submitted|
  {
    if p.ready && !busy {
      var cands := Candidates(env.listing, env.kept);
      UploadTurnContract(env);
      RequestsSpaced(cands, UploadTurn(env), p.quota, now + AnnouncePause, 0);
      RecordsEveryRequest(cands, UploadTurn(env), p.quota, now + AnnouncePause, 0);
    }
  }

  /** The quota a handler call leaves behind accounts for its uploads: the
      window never moves back, and while it stays put the counter grows by
      exactly the number of markers the call created. */
  lemma RunCountsUploads(p: PluginState, busy: bool, env: Env, now: int)
    ensures var r := OnInternetAvailable(p, busy, env, now);
      && r.plugin.quota.lastHourReset >= p.quota.lastHourReset
      && (r.plugin.quota.lastHourReset == p.quota.lastHourReset ==>
            r.plugin.quota.uploadsThisHour == p.quota.uploadsThisHour + |r.markers|)
  {
    if p.ready && !busy {
      var cands := Candidates(env.listing, env.kept);
      UploadTurnContract(env);
      CountsAcceptedUploads(cands, UploadTurn(env), p.quota, now + AnnouncePause, 0);
    }
  }

  /** With a service that accepts every request and room in the window for
      all valid candidates, a call submits every valid candidate, in listing
      order; `RunMarksAllAccepted` adds that each of them gets its marker. */
  lemma RunAllAccepted(p: PluginState, env: Env, now: int)
    requires p.ready
    requires forall a: nat, l: string :: env.network(a, l).response == Status(200)
    requires p.quota.uploadsThisHour + |Filter(ValidName(env.contents), Candidates(env.listing, env.kept))|
             <= HourlyCap
    ensures OnInternetAvailable(p, false, env, now).submitted
            == Filter(ValidName(env.contents), Candidates(env.listing, env.kept))
  {
    AllAcceptedMarksAllValid(Candidates(env.listing, env.kept), env, p.quota, now + AnnouncePause, 0);
  }

  /** Under the same conditions, a call marks every valid candidate, in
      listing order. */
  lemma RunMarksAllAccepted(p: PluginState, env: Env, now: int)
    requires p.ready
    requires forall a: nat, l: string :: env.network(a, l).response == Status(200)
    requires p.quota.uploadsThisHour + |Filter(ValidName(env.contents), Candidates(env.listing, env.kept))|
             <= HourlyCap
    ensures OnInternetAvailable(p, false, env, now).markers
            == MarkAll(Filter(ValidName(env.contents), Candidates(env.listing, env.kept)))
  {
    AllAcceptedMarksAllValid(Candidates(env.listing, env.kept), env, p.quota, now + AnnouncePause, 0);
  }

  /** The spacing reference a call leaves on the plugin never moves back, and
      it is no earlier than the request time of any upload the call got
      accepted. */
  lemma RunLeavesLastUpload(p: PluginState, busy: bool, env: Env, now: int)
    ensures var r := OnInternetAvailable(p, busy, env, now);
      && r.plugin.quota.lastUpload >= p.quota.lastUpload
      && forall i :: 0 <= i < |r.markers| && i < |r.sendTimes| ==> r.plugin.quota.lastUpload >= r.sendTimes[i]
  {
    if p.ready && !busy {
      UploadTurnContract(env);
      LeavesLastUpload(Candidates(env.listing, env.kept), UploadTurn(env), p.quota, now + AnnouncePause, 0);
    }
  }

  /** A call that ended on a 429 leaves the cooldown pending on the plugin and
      returns no sooner than one cooldown after that answer. */
  lemma RunThrottleCarriesOver(p: PluginState, busy: bool, env: Env, now: int)
    ensures var r := OnInternetAvailable(p, busy, env, now);
      r.throttledAt.Some? ==> r.plugin.quota.rateLimitHit && r.clock >= r.throttledAt.value + Cooldown
  {
    if p.ready && !busy {
      UploadTurnContract(env);
      ThrottleLeavesCooldown(Candidates(env.listing, env.kept), UploadTurn(env), p.quota, now + AnnouncePause, 0);
    }
  }

  /** A call that starts with a pending cooldown sends nothing before serving it. */
  lemma RunCooldownBeforeRequests(p: PluginState, busy: bool, env: Env, now: int)
    ensures var r := OnInternetAvailable(p, busy, env, now);
      AllAtLeast(r.sendTimes, now + AnnouncePause + CooldownWait(p.quota))
  {
    if p.ready && !busy {
      var cands := Candidates(env.listing, env.kept);
      if |cands| > 0 {
        var g := Process(cands, UploadTurn(env), p.quota, now + AnnouncePause, 0);
        UploadTurnContract(env);
        CooldownBeforeRequests(cands, UploadTurn(env), p.quota, now + AnnouncePause, 0);
        assert OnInternetAvailable(p, busy, env, now).sendTimes == g.sendTimes;
      }
    }
  }

  /** One trigger of the handler. */
  datatype Call = Call(busy: bool, env: Env, at: int)

  /** Successive handler calls, each starting from the state the previous one
      left behind. */
  function Session(p: PluginState, calls: seq<Call>): (runs: seq<Run>)
    ensures |runs| == |calls|
    ensures |calls| > 0 ==> runs[0] == OnInternetAvailable(p, calls[0].busy, calls[0].env, calls[0].at)
    ensures forall i :: 0 < i < |runs| ==>
      runs[i] == OnInternetAvailable(runs[i - 1].plugin, calls[i].busy, calls[i].env, calls[i].at)
    decreases |calls|
  {
    if |calls| == 0 then []
    else
      var r := OnInternetAvailable(p, calls[0].busy, calls[0].env, calls[0].at);
      var rest := Session(r.plugin, calls[1..]);
      assert forall i :: 1 < i < |calls| ==> ([r] + rest)[i] == rest[i - 1] && calls[i] == calls[1..][i - 1];
      [r] + rest
  }

  /** A plugin whose configuration was refused stays inactive for good: every
      later call is skipped and nothing is ever submitted or marked. */
  lemma {:induction false} RefusedConfigStaysInactive(constructedAt: int, options: map<string, string>,
                                                      calls: seq<Call>)
    requires CheckConfig(options).Fail?
    ensures var runs := Session(OnLoaded(Construct(constructedAt), options), calls);
      forall i :: 0 <= i < |runs| ==>
        runs[i].status.Skipped? && runs[i].submitted == [] && runs[i].markers == []
  {
    NotReadyStaysInactive(OnLoaded(Construct(constructedAt), options), calls);
  }

  lemma {:induction false} NotReadyStaysInactive(p: PluginState, calls: seq<Call>)
    requires !p.ready
    ensures var runs := Session(p, calls);
      forall i :: 0 <= i < |runs| ==>
        runs[i].status.Skipped? && runs[i].submitted == [] && runs[i].markers == []
    decreases |calls|
  {
    if |calls| > 0 {
      var r := OnInternetAvailable(p, calls[0].busy, calls[0].env, calls[0].at);
      NotReadyStaysInactive(r.plugin, calls[1..]);
      var runs := Session(p, calls);
      assert runs == [r] + Session(r.plugin, calls[1..]);
      forall i | 0 <= i < |runs|
        ensures runs[i].status.Skipped? && runs[i].submitted == [] && runs[i].markers == []
      {
        if i > 0 { assert runs[i] == Session(r.plugin, calls[1..])[i - 1]; }
      }
    }
  }

  /** The hourly cap holds after every call of a session. */
  lemma {:induction false} CapHoldsAcrossSession(p: PluginState, calls: seq<Call>)
    requires p.quota.uploadsThisHour <= HourlyCap
    ensures var runs := Session(p, calls);
      forall i :: 0 <= i < |runs| ==> runs[i].plugin.quota.uploadsThisHour <= HourlyCap
    decreases |calls|
  {
    if |calls| > 0 {
      var r := OnInternetAvailable(p, calls[0].busy, calls[0].env, calls[0].at);
      CapHoldsAcrossSession(r.plugin, calls[1..]);
      var runs := Session(p, calls);
      assert runs == [r] + Session(r.plugin, calls[1..]);
      forall i | 0 <= i < |runs| ensures runs[i].plugin.quota.uploadsThisHour <= HourlyCap {
        if i > 0 { assert runs[i] == Session(r.plugin, calls[1..])[i - 1]; }
      }
    }
  }

  /** The state a session's i-th call started from. */
  function StartOf(p: PluginState, runs: seq<Run>, i: nat): PluginState
    requires i <= |runs|
  {
    if i == 0 then p else runs[i - 1].plugin
  }

  /** Every request of `next` is at least 12 s after every upload `prev` got
      accepted. */
  predicate SpacedAfterAccepted(prev: Run, next: Run)
  {
    forall j :: 0 <= j < |prev.markers| && j < |prev.sendTimes| ==>
      AllAtLeast(next.sendTimes, prev.sendTimes[j] + MinSpacing)
  }

  /** Two handler calls in a row: every request of the second is at least 12 s
      after every upload the first got accepted. */
  lemma ConsecutiveCallsSpaced(from: PluginState, c: Call, d: Call)
    ensures var prev := OnInternetAvailable(from, c.busy, c.env, c.at);
      SpacedAfterAccepted(prev, OnInternetAvailable(prev.plugin, d.busy, d.env, d.at))
  {
    var prev := OnInternetAvailable(from, c.busy, c.env, c.at);
    var next := OnInternetAvailable(prev.plugin, d.busy, d.env, d.at);
    RunLeavesLastUpload(from, c.busy, c.env, c.at);
    RunRequestsSpaced(prev.plugin, d.busy, d.env, d.at);
    SpacedAfterAll(next.sendTimes, prev.plugin.quota.lastUpload);
  }

  /** Two handler calls in a row, the second starting once the first has
      returned: when the first ended on a 429, no request of the second goes
      out until two cooldowns after the 429 arrived. */
  lemma ConsecutiveCallsThrottled(from: PluginState, c: Call, d: Call)
    requires d.at >= OnInternetAvailable(from, c.busy, c.env, c.at).clock
    ensures var prev := OnInternetAvailable(from, c.busy, c.env, c.at);
      var next := OnInternetAvailable(prev.plugin, d.busy, d.env, d.at);
      prev.throttledAt.Some? ==> AllAtLeast(next.sendTimes, prev.throttledAt.value + 2 * Cooldown)
  {
    var prev := OnInternetAvailable(from, c.busy, c.env, c.at);
    RunThrottleCarriesOver(from, c.busy, c.env, c.at);
    RunCooldownBeforeRequests(prev.plugin, d.busy, d.env, d.at);
  }

  /** The 12 s spacing holds across the calls of a session: every request of a
      call is at least 12 s after every upload the previous call got accepted. */
  lemma SessionSpacedAcrossCalls(p: PluginState, calls: seq<Call>, i: nat)
    requires i + 1 < |calls|
    ensures var runs := Session(p, calls); SpacedAfterAccepted(runs[i], runs[i + 1])
  {
    var runs := Session(p, calls);
    var from := StartOf(p, runs, i);
    assert runs[i] == OnInternetAvailable(from, calls[i].busy, calls[i].env, calls[i].at);
    ConsecutiveCallsSpaced(from, calls[i], calls[i + 1]);
  }

  /** A call that ended on a 429 delays the next call of the session: when the
      next call starts no earlier than the previous one returned, none of its
      requests goes out until two cooldowns after the 429 arrived. */
  lemma SessionThrottleDelaysNextCall(p: PluginState, calls: seq<Call>, i: nat)
    requires i + 1 < |calls|
    requires calls[i + 1].at >= Session(p, calls)[i].clock
    ensures var runs := Session(p, calls);
      runs[i].throttledAt.Some? ==>
        AllAtLeast(runs[i + 1].sendTimes, runs[i].throttledAt.value + 2 * Cooldown)
  {
    var runs := Session(p, calls);
    var from := StartOf(p, runs, i);
    assert runs[i] == OnInternetAvailable(from, calls[i].busy, calls[i].env, calls[i].at);
    ConsecutiveCallsThrottled(from, calls[i], calls[i + 1]);
  }
}

=== FILE: rate_control.dfy ===
/** The quota and pacing state machine of the uploader: a fixed one-hour window
    with a cap of 30 accepted uploads, a 300-second cooldown after the service
    answers 429, and at least 12 seconds between the last accepted upload and the
    next request.

    Time is an integer number of seconds. Everything except sleeping and waiting
    for the network takes no time: `time.sleep(d)` advances the clock by exactly
    `d`, and a request advances it by the reply's latency. */
module RateControl {
  import opened Wrappers

  const HourlyCap: nat := 30
  const WindowLength: nat := 3600
  const MinSpacing: nat := 12
  const Cooldown: nat := 300
  /** Pause after an accepted upload, before returning to the batch loop. */
  const AcceptedPause: nat := 1

  /** The four quota fields of the plugin object. */
  datatype QuotaState = QuotaState(
    uploadsThisHour: nat,   // accepted uploads in the current window
    lastHourReset: int,     // start of the current window
    lastUpload: int,        // when the last accepted upload's response arrived
    rateLimitHit: bool)     // the service asked us to back off

  /** Quota state of a freshly constructed plugin: the window starts at
      construction time and no upload has happened since the epoch. */
  function InitialQuota(constructedAt: int): (q: QuotaState)
    ensures q.uploadsThisHour == 0 && !q.rateLimitHit
    ensures q.lastHourReset == constructedAt && q.lastUpload == 0
  {
    QuotaState(0, constructedAt, 0, false)
  }

  /** Lazy window reset performed at the start of every submission. */
  function ResetWindow(q: QuotaState, now: int): (r: QuotaState)
    // afterwards the window is current at `now`
    ensures now - r.lastHourReset < WindowLength
    // a reset only happens to an expired window, and then starts a fresh one at `now`
    ensures r != q ==> now - q.lastHourReset >= WindowLength
    ensures r != q ==> r.uploadsThisHour == 0 && r.lastHourReset == now
    // never touches pacing or cooldown, never raises the counter
    ensures r.lastUpload == q.lastUpload && r.rateLimitHit == q.rateLimitHit
    ensures r.uploadsThisHour <= q.uploadsThisHour
  {
    if now - q.lastHourReset >= WindowLength then
      q.(uploadsThisHour := 0, lastHourReset := now)
    else q
  }

  /** The reset is idempotent at a fixed time, and leaves a current window alone. */
  lemma ResetWindowIdempotent(q: QuotaState, now: int)
    ensures ResetWindow(ResetWindow(q, now), now) == ResetWindow(q, now)
    ensures now - q.lastHourReset < WindowLength ==> ResetWindow(q, now) == q
  {
  }

  /** How long to sleep at time `t` so that a request is at least `MinSpacing`
      seconds after `lastUpload`. */
  function SpacingDelay(lastUpload: int, t: int): (d: nat)
    // long enough ...
    ensures t + d >= lastUpload + MinSpacing
    // ... and no longer than needed
    ensures d > 0 ==> t + d == lastUpload + MinSpacing
  {
    if t - lastUpload < MinSpacing then MinSpacing - (t - lastUpload) else 0
  }

  /** The extra wait a pending cooldown imposes. */
  function CooldownWait(q: QuotaState): nat
  {
    if q.rateLimitHit then Cooldown else 0
  }

  function Max(a: int, b: int): int
  {
    if a >= b then a else b
  }

  /** What `_submit_hash` decides before touching the network. */
  datatype Decision =
    | Refuse(wait: int, quota: QuotaState)  // cap reached: sleep `wait`, then give up
    | Send(at: int, quota: QuotaState)      // send the request at time `at`

  /** The decision part of a submission made at time `now`. */
  function Decide(q: QuotaState, now: int): (d: Decision)
    // the cap is the only reason to refuse
    ensures d.Refuse? <==> ResetWindow(q, now).uploadsThisHour >= HourlyCap
    // a refusal sleeps until the end of the current window, and changes nothing else
    ensures d.Refuse? ==> d.quota == ResetWindow(q, now) && d.wait > 0
    ensures d.Refuse? ==> now + d.wait == d.quota.lastHourReset + WindowLength
    ensures d.Refuse? && q.lastHourReset <= now ==> d.wait <= WindowLength
    // a request goes out under the cap, with the cooldown consumed ...
    ensures d.Send? ==> d.quota.uploadsThisHour < HourlyCap && !d.quota.rateLimitHit
    ensures d.Send? ==> d.quota == ResetWindow(q, now).(rateLimitHit := false)
    // ... no earlier than the cooldown and the spacing allow, and no later than needed
    ensures d.Send? ==> d.at >= now + CooldownWait(q) && d.at >= q.lastUpload + MinSpacing
    ensures d.Send? ==> d.at == Max(now + CooldownWait(q), q.lastUpload + MinSpacing)
  {
    var w := ResetWindow(q, now);
    if w.uploadsThisHour >= HourlyCap then
      Refuse(WindowLength - (now - w.lastHourReset), w)
    else
      var t := now + CooldownWait(w);
      var c := w.(rateLimitHit := false);
      Send(t + SpacingDelay(c.lastUpload, t), c)
  }

  /** The service's answer, as far as the uploader distinguishes it. */
  datatype Response =
    | Status(code: int)   // an HTTP response with this status
    | ConnectionFailed    // `requests.post` (or reading an error body) raised

  /** One network exchange: the answer and how many seconds it took. */
  datatype Reply = Reply(response: Response, latency: nat)

  /** What a submission returns to the batch loop. */
  datatype Submission = Submission(
    accepted: bool,        // the boolean `_submit_hash` returns
    quota: QuotaState,     // quota fields afterwards
    clock: int,            // time when it returns
    sentAt: Option<int>)   // when the request went out, if it did

  /** The outcome-classification part: the request is sent at `at` with quota
      fields `q`, and `reply` comes back. */
  function Classify(q: QuotaState, at: int, reply: Reply): (s: Submission)
    ensures s.sentAt == Some(at)
    ensures s.accepted <==> reply.response == Status(200)
    ensures s.clock >= at + reply.latency
    // only acceptance counts an upload, and it restarts the spacing from the response
    ensures s.accepted ==> s.quota.uploadsThisHour == q.uploadsThisHour + 1
    ensures s.accepted ==> s.quota.lastUpload == at + reply.latency
    ensures !s.accepted ==> s.quota.uploadsThisHour == q.uploadsThisHour
    ensures !s.accepted ==> s.quota.lastUpload == q.lastUpload
    // only a 429 raises the cooldown flag, and nothing lowers it
    ensures s.quota.rateLimitHit <==> q.rateLimitHit || reply.response == Status(429)
    // the window is never moved by an outcome
    ensures s.quota.lastHourReset == q.lastHourReset
  {
    var done := at + reply.latency;
    match reply.response
    case Status(code) =>
      if code == 200 then
        Submission(true, q.(lastUpload := done, uploadsThisHour := q.uploadsThisHour + 1),
                   done + AcceptedPause, Some(at))
      else if code == 429 then
        Submission(false, q.(rateLimitHit := true), done + Cooldown, Some(at))
      else
        Submission(false, q, done, Some(at))
    case ConnectionFailed =>
      Submission(false, q, done, Some(at))
  }

  /** `_submit_hash` at time `now`, with `reply` standing for the network's
      answer should a request be sent. */
  function Submit(q: QuotaState, now: int, reply: Reply): (s: Submission)
    // time only moves forward
    ensures s.clock >= now
    // a request goes out exactly when the window's cap has not been reached
    ensures s.sentAt.Some? <==> ResetWindow(q, now).uploadsThisHour < HourlyCap
    ensures s.accepted ==> s.sentAt.Some?
    // the cap is never exceeded
    ensures q.uploadsThisHour <= HourlyCap ==> s.quota.uploadsThisHour <= HourlyCap
    // spacing and cooldown are respected by every request
    ensures s.sentAt.Some? ==> s.sentAt.value >= q.lastUpload + MinSpacing
    ensures s.sentAt.Some? ==> s.sentAt.value >= now + CooldownWait(q)
    ensures s.sentAt.Some? ==> s.clock >= s.sentAt.value + reply.latency
    // an accepted upload is the new spacing reference
    ensures s.accepted ==> s.quota.lastUpload == s.sentAt.value + reply.latency
    // a request that went out is accepted exactly on HTTP 200
    ensures s.sentAt.Some? ==> (s.accepted <==> reply.response == Status(200))
    // the window never moves back, and while it stays put the counter grows
    // by exactly the accepted upload
    ensures s.quota.lastHourReset >= q.lastHourReset
    ensures s.quota.lastHourReset == q.lastHourReset ==>
      s.quota.uploadsThisHour == q.uploadsThisHour + (if s.accepted then 1 else 0)
    ensures s.quota.uploadsThisHour <= q.uploadsThisHour + (if s.accepted then 1 else 0)
    // the spacing reference never moves back
    ensures s.quota.lastUpload >= q.lastUpload
    // a 429 leaves the cooldown pending, after sleeping it once already
    ensures s.sentAt.Some? && reply.response == Status(429) ==>
      s.quota.rateLimitHit && s.clock >= s.sentAt.value + reply.latency + Cooldown
  {
    match Decide(q, now)
    case Refuse(wait, w) => Submission(false, w, now + wait, None)
    case Send(at, w) => Classify(w, at, reply)
  }

  /** The effect of each kind of answer on the quota fields, relative to the
      state in which the request was sent. */
  lemma OutcomeEffects(q: QuotaState, now: int, reply: Reply)
    requires Decide(q, now).Send?
    ensures var s := Submit(q, now, reply); var w := Decide(q, now).quota;
      && (reply.response == Status(200) ==>
            s.accepted && s.quota == w.(uploadsThisHour := w.uploadsThisHour + 1,
                                        lastUpload := s.sentAt.value + reply.latency))
      && (reply.response == Status(429) ==>
            !s.accepted && s.quota == w.(rateLimitHit := true))
      && (reply.response != Status(200) && reply.response != Status(429) ==>
            !s.accepted && s.quota == w)
  {
  }

  /** A pending cooldown is served before the request and then cleared; only
      a fresh 429 raises the flag again. */
  lemma CooldownServedThenCleared(q: QuotaState, now: int, reply: Reply)
    requires q.rateLimitHit
    requires ResetWindow(q, now).uploadsThisHour < HourlyCap
    ensures var s := Submit(q, now, reply);
      && s.sentAt.Some? && s.sentAt.value >= now + Cooldown
      && (s.quota.rateLimitHit <==> reply.response == Status(429))
  {
  }

  /** A refused submission sleeps to the end of the window, so the next
      submission, whenever it comes, starts a fresh window. */
  lemma RefusalOpensFreshWindow(q: QuotaState, now: int, reply: Reply, later: int)
    requires Submit(q, now, reply).sentAt.None?
    requires later >= Submit(q, now, reply).clock
    ensures !Submit(q, now, reply).accepted
    ensures ResetWindow(Submit(q, now, reply).quota, later).uploadsThisHour == 0
  {
  }

  /** A 429 costs two cooldowns: one slept right after the answer, and another
      before the next request, because the flag is only lowered there. */
  lemma ThrottleDelaysNextRequest(q: QuotaState, now: int, reply: Reply,
                                  later: int, next: Reply)
    requires reply.response == Status(429)
    requires Submit(q, now, reply).sentAt.Some?
    requires later >= Submit(q, now, reply).clock
    requires Submit(Submit(q, now, reply).quota, later, next).sentAt.Some?
    ensures Submit(Submit(q, now, reply).quota, later, next).sentAt.value
            >= Submit(q, now, reply).sentAt.value + reply.latency + 2 * Cooldown
  {
  }

  /** After an accepted upload, the next request is at least `MinSpacing`
      seconds after the previous one's response. */
  lemma AcceptedThenSpaced(q: QuotaState, now: int, reply: Reply,
                           later: int, next: Reply)
    requires Submit(q, now, reply).accepted
    requires Submit(Submit(q, now, reply).quota, later, next).sentAt.Some?
    ensures Submit(Submit(q, now, reply).quota, later, next).sentAt.value
            >= Submit(q, now, reply).sentAt.value + reply.latency + MinSpacing
  {
  }
}

=== FILE: selection.dfy ===
/** Choosing which files of the handshake directory to upload: `.22000` hash
    files that have no `.uploaded` marker next to them and whose capture file
    survives the whitelist. */
module Selection {
  import opened Text
  import opened Seqs

  const HashSuffix: string := ".22000"
  const CaptureSuffix: string := ".pcap"
  const MarkerSuffix: string := ".uploaded"

  /** The marker file whose existence says `name` was uploaded. */
  function Mark(name: string): (m: string)
    ensures |name| < |m| && m[..|name|] == name && EndsWith(m, MarkerSuffix)
    ensures |m| == |name| + |MarkerSuffix|
  {
    name + MarkerSuffix
  }

  /** The capture-file name the whitelist is asked about. */
  function CaptureName(name: string): (c: string)
    // `.pcap` is shorter than `.22000`, so the name never grows
    ensures |c| <= |name|
  {
    ReplaceAll(name, HashSuffix, CaptureSuffix)
  }

  /** A hash file that has not been uploaded yet. */
  function Unsubmitted(listing: seq<string>): string -> bool
  {
    f => EndsWith(f, HashSuffix) && Mark(f) !in listing
  }

  /** The whitelist's verdict, `kept(c)` meaning capture file `c` may be uploaded. */
  function Allowed(kept: string -> bool): string -> bool
  {
    hf => kept(CaptureName(hf))
  }

  /** The single test every candidate passes. */
  predicate IsCandidate(listing: seq<string>, kept: string -> bool, f: string)
  {
    EndsWith(f, HashSuffix) && Mark(f) !in listing && kept(CaptureName(f))
  }

  function CandidateTest(listing: seq<string>, kept: string -> bool): string -> bool
  {
    f => IsCandidate(listing, kept, f)
  }

  /** The candidates of a directory listing: first the unmarked hash files, then
      those the whitelist keeps. */
  function Candidates(listing: seq<string>, kept: string -> bool): (r: seq<string>)
    ensures forall f :: f in r <==> f in listing && IsCandidate(listing, kept, f)
    ensures |r| <= |listing|
  {
    var unmarked := Filter(Unsubmitted(listing), listing);
    FilterMembers(Unsubmitted(listing), listing);
    FilterMembers(Allowed(kept), unmarked);
    Filter(Allowed(kept), unmarked)
  }

  /** The two passes are one order-preserving filter with the combined test. */
  lemma CandidatesSinglePass(listing: seq<string>, kept: string -> bool)
    ensures Candidates(listing, kept) == Filter(CandidateTest(listing, kept), listing)
  {
    FilterFuse(Unsubmitted(listing), Allowed(kept), CandidateTest(listing, kept), listing);
  }

  /** Candidates keep listing order: the candidates of an earlier part of the
      listing all precede those of a later part. */
  lemma CandidatesInListingOrder(listing: seq<string>, kept: string -> bool, k: nat)
    requires k <= |listing|
    ensures Candidates(listing, kept)
            == Filter(CandidateTest(listing, kept), listing[..k])
             + Filter(CandidateTest(listing, kept), listing[k..])
  {
    CandidatesSinglePass(listing, kept);
    assert listing == listing[..k] + listing[k..];
    FilterConcat(CandidateTest(listing, kept), listing[..k], listing[k..]);
  }

  /** A marker file is never a candidate itself. */
  lemma MarkerNeverCandidate(listing: seq<string>, kept: string -> bool, name: string)
    ensures Mark(name) !in Candidates(listing, kept)
  {
    var m := Mark(name);
    assert m[|m| - 1] == 'd';
    assert HashSuffix[|HashSuffix| - 1] == '0';
  }

  /** Adding markers for some names removes exactly those names from the
      candidates; nothing is selected again once its marker exists. */
  lemma MarkedNotSelectedAgain(listing: seq<string>, markers: seq<string>,
                               kept: string -> bool, name: string)
    requires Mark(name) in markers
    ensures name !in Candidates(listing + markers, kept)
  {
  }

  /** A hash file `<stem>.22000` whose stem does not run into another `.22000`
      is whitelisted under `<stem>.pcap`. */
  lemma CaptureNameOfPlainStem(stem: string)
    requires forall i: nat :: i < |stem| ==> !OccursAt(stem + HashSuffix, HashSuffix, i)
    ensures CaptureName(stem + HashSuffix) == stem + CaptureSuffix
  {
    ReplaceOnlySuffix(stem, HashSuffix, CaptureSuffix);
  }

  /** Every occurrence is replaced, not only the suffix: a name with `.22000`
      inside its stem is looked up under a name that differs there too. */
  lemma CaptureNameReplacesEveryOccurrence()
    ensures CaptureName("a.22000.22000") == "a.pcap.pcap"
  {
    var s := "a.22000.22000";
    assert s[0] == 'a' && HashSuffix[0] == '.';
    assert s[..6] != HashSuffix;
    assert s[1..] == ".22000.22000";
    assert s[1..][..6] == HashSuffix && s[1..][6..] == HashSuffix;
    assert ReplaceAll(HashSuffix, HashSuffix, CaptureSuffix) == CaptureSuffix by {
      assert HashSuffix[..6] == HashSuffix && HashSuffix[6..] == [];
    }
    assert ReplaceAll(s[1..], HashSuffix, CaptureSuffix) == ".pcap.pcap";
  }
}

=== FILE: seqs.dfy ===
/** Order-preserving filtering of sequences, the model of a Python list comprehension
    `[x for x in xs if p(x)]`. */
module Seqs {

  /** The elements of `s` that satisfy `p`, in their original order. */
  function Filter<T(!new)>(p: T -> bool, s: seq<T>): (r: seq<T>)
    ensures |r| <= |s|
    ensures forall i :: 0 <= i < |r| ==> p(r[i])
  {
    if |s| == 0 then []
    else (if p(s[0]) then [s[0]] else []) + Filter(p, s[1..])
  }

  /** An element is kept exactly when it occurs in the input and passes the test. */
  lemma {:induction false} FilterMembers<T(!new)>(p: T -> bool, s: seq<T>)
    ensures forall x :: x in Filter(p, s) <==> x in s && p(x)
  {
    if |s| != 0 {
      FilterMembers(p, s[1..]);
      assert s == [s[0]] + s[1..];
    }
  }

  /** Filtering distributes over concatenation: the kept elements of the first part
      all come before the kept elements of the second part, so order is preserved. */
  lemma {:induction false} FilterConcat<T(!new)>(p: T -> bool, a: seq<T>, b: seq<T>)
    ensures Filter(p, a + b) == Filter(p, a) + Filter(p, b)
  {
    if |a| == 0 {
      assert a + b == b;
    } else {
      assert (a + b)[0] == a[0];
      assert (a + b)[1..] == a[1..] + b;
      FilterConcat(p, a[1..], b);
    }
  }

  /** Filtering a sequence with a first element decides that element and
      filters the rest. */
  lemma FilterCons<T(!new)>(p: T -> bool, x: T, s: seq<T>)
    ensures Filter(p, [x] + s) == (if p(x) then [x] else []) + Filter(p, s)
  {
    assert ([x] + s)[0] == x;
    assert ([x] + s)[1..] == s;
  }

  /** A non-empty prefix is the first element followed by a prefix of the rest. */
  lemma TakeCons<T>(s: seq<T>, k: nat)
    requires k < |s|
    ensures s[..k + 1] == [s[0]] + s[1..][..k]
  {
  }

  /** Two filters in a row keep exactly what one filter with the conjoined test keeps. */
  lemma {:induction false} FilterFuse<T(!new)>(p: T -> bool, q: T -> bool, both: T -> bool, s: seq<T>)
    requires forall x :: both(x) == (p(x) && q(x))
    ensures Filter(q, Filter(p, s)) == Filter(both, s)
  {
    if |s| != 0 {
      FilterFuse(p, q, both, s[1..]);
      if p(s[0]) {
        var t := Filter(p, s);
        assert t == [s[0]] + Filter(p, s[1..]);
        assert t[0] == s[0];
        assert t[1..] == Filter(p, s[1..]);
      } else {
        assert Filter(p, s) == Filter(p, s[1..]);
      }
    }
  }
}

=== FILE: text.dfy ===
/** The few Python string operations the uploader relies on: `str.strip()`,
    `str.startswith`, `str.endswith`, `str.replace` and reading one line of a
    text-mode file. */
module Text {

  /** Python's `str.isspace()` for one character: the ASCII whitespace and
      separator controls plus the Unicode space separators. */
  predicate IsSpace(c: char)
  {
    var n := c as int;
    || n == 0x20 || 0x09 <= n <= 0x0D || 0x1C <= n <= 0x1F || n == 0x85 || n == 0xA0
    || n == 0x1680 || 0x2000 <= n <= 0x200A || n == 0x2028 || n == 0x2029
    || n == 0x202F || n == 0x205F || n == 0x3000
  }

  /** A line terminator of a file opened in text mode with universal newlines. */
  predicate IsLineBreak(c: char)
  {
    c == '\n' || c == '\r'
  }

  predicate AllSpace(s: string)
  {
    forall k :: 0 <= k < |s| ==> IsSpace(s[k])
  }

  predicate NoLineBreak(s: string)
  {
    forall k :: 0 <= k < |s| ==> !IsLineBreak(s[k])
  }

  predicate StartsWith(s: string, prefix: string)
  {
    prefix <= s
  }

  predicate EndsWith(s: string, suffix: string)
  {
    |suffix| <= |s| && s[|s| - |suffix|..] == suffix
  }

  /** `pat` appears in `s` starting at index `i`. */
  predicate OccursAt(s: string, pat: string, i: nat)
  {
    i + |pat| <= |s| && s[i..i + |pat|] == pat
  }

  lemma AllSpaceConcat(a: string, b: string)
    ensures AllSpace(a + b) <==> AllSpace(a) && AllSpace(b)
  {
    if AllSpace(a) && AllSpace(b) {
      forall k | 0 <= k < |a + b| ensures IsSpace((a + b)[k]) {
        if k >= |a| { assert (a + b)[k] == b[k - |a|]; }
      }
    }
    if AllSpace(a + b) {
      forall k | 0 <= k < |a| ensures IsSpace(a[k]) {
        assert (a + b)[k] == a[k];
      }
      forall k | 0 <= k < |b| ensures IsSpace(b[k]) {
        assert (a + b)[|a| + k] == b[k];
      }
    }
  }

  /** The run of whitespace at the front of `s`. */
  function LeadingPad(s: string): string
  {
    if |s| > 0 && IsSpace(s[0]) then [s[0]] + LeadingPad(s[1..]) else []
  }

  /** The run of whitespace at the end of `s`. */
  function TrailingPad(s: string): string
  {
    if |s| > 0 && IsSpace(s[|s| - 1]) then TrailingPad(s[..|s| - 1]) + [s[|s| - 1]] else []
  }

  /** `s` without its leading whitespace. */
  function TrimStart(s: string): (r: string)
    ensures s == LeadingPad(s) + r && AllSpace(LeadingPad(s))
    ensures r != [] ==> !IsSpace(r[0])
  {
    if |s| > 0 && IsSpace(s[0]) then
      var r := TrimStart(s[1..]);
      assert s == [s[0]] + s[1..];
      AllSpaceConcat([s[0]], LeadingPad(s[1..]));
      r
    else s
  }

  /** `s` without its trailing whitespace. */
  function TrimEnd(s: string): (r: string)
    ensures s == r + TrailingPad(s) && AllSpace(TrailingPad(s))
    ensures r != [] ==> !IsSpace(r[|r| - 1])
  {
    if |s| > 0 && IsSpace(s[|s| - 1]) then
      var r := TrimEnd(s[..|s| - 1]);
      assert s == s[..|s| - 1] + [s[|s| - 1]];
      AllSpaceConcat(TrailingPad(s[..|s| - 1]), [s[|s| - 1]]);
      r
    else s
  }

  /** Python's `str.strip()` with no argument. */
  function Strip(s: string): (r: string)
    ensures r == [] <==> AllSpace(s)
    ensures r != [] ==> !IsSpace(r[0]) && !IsSpace(r[|r| - 1])
  {
    var t := TrimStart(s);
    var r := TrimEnd(t);
    AllSpaceConcat(LeadingPad(s), t);
    AllSpaceConcat(r, TrailingPad(t));
    assert r != [] ==> (LeadingPad(s) + t)[|LeadingPad(s)|] == r[0];
    r
  }

  /** `Strip` removes whitespace around its result and nothing else: the
      input is the result with a whitespace run on each side. */
  lemma StripRemovesOnlyPadding(s: string)
    ensures var front, back := LeadingPad(s), TrailingPad(TrimStart(s));
      && s == front + Strip(s) + back
      && AllSpace(front) && AllSpace(back)
  {
    var t := TrimStart(s);
    assert s == LeadingPad(s) + (TrimEnd(t) + TrailingPad(t));
  }

  /** Trimming the front of padded text removes exactly the padding. */
  lemma {:induction false} TrimStartPadded(front: string, t: string)
    requires AllSpace(front)
    requires t != [] && !IsSpace(t[0])
    ensures TrimStart(front + t) == t
    decreases |front|
  {
    if |front| == 0 {
      assert front + t == t;
    } else {
      assert (front + t)[0] == front[0];
      assert (front + t)[1..] == front[1..] + t;
      TrimStartPadded(front[1..], t);
    }
  }

  /** Trimming the end of padded text removes exactly the padding. */
  lemma {:induction false} TrimEndPadded(t: string, back: string)
    requires AllSpace(back)
    requires t != [] && !IsSpace(t[|t| - 1])
    ensures TrimEnd(t + back) == t
    decreases |back|
  {
    if |back| == 0 {
      assert t + back == t;
    } else {
      var s := t + back;
      assert s[|s| - 1] == back[|back| - 1];
      assert s[..|s| - 1] == t + back[..|back| - 1];
      TrimEndPadded(t, back[..|back| - 1]);
    }
  }

  /** Stripping a padded word gives back the word: `Strip` removes exactly the
      whitespace around its result and nothing else. */
  lemma StripPadded(front: string, word: string, back: string)
    requires AllSpace(front) && AllSpace(back)
    requires word != [] && !IsSpace(word[0]) && !IsSpace(word[|word| - 1])
    ensures Strip(front + word + back) == word
  {
    assert front + word + back == front + (word + back);
    TrimStartPadded(front, word + back);
    TrimEndPadded(word, back);
  }

  /** The first line of a text file's content, without its terminator: what
      `readline()` returns once the line break is dropped. */
  function FirstLine(s: string): (r: string)
    ensures r <= s
    ensures NoLineBreak(r)
    ensures |r| < |s| ==> IsLineBreak(s[|r|])
  {
    if |s| == 0 || IsLineBreak(s[0]) then []
    else [s[0]] + FirstLine(s[1..])
  }

  /** Python's `s.replace(pat, rep)` for a non-empty `pat`: every non-overlapping
      occurrence, scanning left to right, is replaced. */
  function ReplaceAll(s: string, pat: string, rep: string): (r: string)
    requires pat != []
    // a replacement no longer than the pattern never lengthens the text,
    // and one of the same length keeps its length
    ensures |rep| <= |pat| ==> |r| <= |s|
    ensures |rep| == |pat| ==> |r| == |s|
    decreases |s|
  {
    if |s| < |pat| then s
    else if s[..|pat|] == pat then rep + ReplaceAll(s[|pat|..], pat, rep)
    else [s[0]] + ReplaceAll(s[1..], pat, rep)
  }

  /** Dropping the first character shifts every occurrence one place left. */
  lemma OccursInTail(s: string, pat: string, i: nat)
    requires |s| > 0
    ensures OccursAt(s[1..], pat, i) <==> OccursAt(s, pat, i + 1)
  {
    if i + |pat| <= |s| - 1 {
      assert s[1..][i..i + |pat|] == s[i + 1..i + 1 + |pat|];
    }
  }

  /** A string in which `pat` never occurs is left unchanged. */
  lemma {:induction false} ReplaceAbsent(s: string, pat: string, rep: string)
    requires pat != []
    requires forall i: nat :: !OccursAt(s, pat, i)
    ensures ReplaceAll(s, pat, rep) == s
    decreases |s|
  {
    if |s| >= |pat| {
      assert !OccursAt(s, pat, 0);
      assert s[..|pat|] != pat by { assert s[0..0 + |pat|] == s[..|pat|]; }
      forall i: nat ensures !OccursAt(s[1..], pat, i) {
        OccursInTail(s, pat, i);
      }
      ReplaceAbsent(s[1..], pat, rep);
    }
  }

  /** The left-to-right step of `replace`: the first occurrence of `pat` is
      swapped for `rep`, the text before it is kept, and replacing goes on
      in the text after it. With `ReplaceAbsent` this fixes the result on
      every input. */
  lemma {:induction false} ReplaceFirstOccurrence(x: string, pat: string, rep: string, y: string)
    requires pat != []
    requires forall i: nat :: i < |x| ==> !OccursAt(x + pat + y, pat, i)
    ensures ReplaceAll(x + pat + y, pat, rep) == x + rep + ReplaceAll(y, pat, rep)
    decreases |x|
  {
    var s := x + pat + y;
    if |x| == 0 {
      assert s == pat + y;
      assert s[..|pat|] == pat && s[|pat|..] == y;
    } else {
      assert !OccursAt(s, pat, 0);
      assert s[..|pat|] != pat by { assert s[0..0 + |pat|] == s[..|pat|]; }
      assert s[1..] == x[1..] + pat + y;
      forall i: nat | i < |x[1..]| ensures !OccursAt(x[1..] + pat + y, pat, i) {
        OccursInTail(s, pat, i);
      }
      assert ReplaceAll(s, pat, rep) == [s[0]] + ReplaceAll(x[1..] + pat + y, pat, rep);
      ReplaceFirstOccurrence(x[1..], pat, rep, y);
      assert x == [s[0]] + x[1..];
    }
  }

  /** When `pat` occurs in `stem + pat` only at the very end, replacing it swaps
      that suffix for `rep` and leaves the stem alone. */
  lemma {:induction false} ReplaceOnlySuffix(stem: string, pat: string, rep: string)
    requires pat != []
    requires forall i: nat :: i < |stem| ==> !OccursAt(stem + pat, pat, i)
    ensures ReplaceAll(stem + pat, pat, rep) == stem + rep
    decreases |stem|
  {
    var s := stem + pat;
    if |stem| == 0 {
      assert s == pat;
      assert s[|pat|..] == [];
    } else {
      assert !OccursAt(s, pat, 0);
      assert s[..|pat|] != pat by { assert s[0..0 + |pat|] == s[..|pat|]; }
      assert s[1..] == stem[1..] + pat;
      forall i: nat | i < |stem[1..]| ensures !OccursAt(stem[1..] + pat, pat, i) {
        OccursInTail(s, pat, i);
      }
      assert ReplaceAll(s, pat, rep) == [s[0]] + ReplaceAll(stem[1..] + pat, pat, rep);
      ReplaceOnlySuffix(stem[1..], pat, rep);
      assert stem == [s[0]] + stem[1..];
    }
  }
}

=== FILE: wrappers.dfy ===
/** Failure-carrying wrappers shared by the rest of the model. */
module Wrappers {

  /** A value that may be absent: a file that could not be read, a request never sent. */
  datatype Option<+T> = None | Some(value: T)

  /** A value or the reason it could not be produced. */
  datatype Result<+T, +E> = Success(value: T) | Failure(error: E)

  /** A check that either passes or fails with a reason. */
  datatype Outcome<+E> = Pass | Fail(error: E)
}
